=== FILE: README.md ===
# BTP2 network monitor — display and reconciliation rules

The BTP2 network monitor watches relay links between blockchain networks. For
every directed connection `(src, dst)` a link-state registry (`Links`) tracks
the transmit and receive sequence counters, the pending count and a health
state, `GOOD` or `BAD`. Three front ends read that registry:

- the `status` command prints a one-shot table with one row per bidirectional
  relay link, for distinct known links;
- the `monitor` command hands its terminal app a callback that posts a Slack
  message when a Slack hook and channel are configured; when that callback
  is called is decided by the app, which is not part of this model;
- the terminal dashboard `MonitorApp` (btp2/monitor_ui.py) shows one entry,
  with a forward and a backward panel, per relay link; when its update
  callback returns, it logs the ticks whose update reports a change and at
  least one updated link.

This project models, in Dafny, the pure rules those front ends apply to the
registry's answers, and proves what they guarantee:

- which connections the status table lists (`StatusTable`);
- which connections get a dashboard panel (`Dashboard`, entries);
- the CSS class and text of each direction's panel, and which direction each
  panel shows (`Dashboard`, panels);
- the Slack status cells, change text and block list (`SlackMessage`);
- the callback and log decision of one refresh tick (`Dashboard`, tick).

The registry itself is not part of this model. Its accessors `keys()`,
`name_of`, `get_link`, `get_link_update`, `merge_status` and the results of
`Links.update()` appear as parameters of the operations that use them. The
operations assume nothing about their answers. Three read-back lemmas need
the display names, and two of them the durations `strfdelta` renders, to be
free of newlines:
`ChangeTextLines` splits the change text into lines, and `RowBlockReadsBack`
and `BuildBlocksRows` split a Slack field into its two lines.

Every text the front ends build has a reader next to it (`ReadPanel`,
`ReadMrkdwn`, `ReadEventLine`, `ReadLogLine`, `Split`). The builders' contracts
and the round-trip lemmas show what each text carries:

- a panel: the state, both counters, the pending count and the delay;
- a Slack status cell: OK, or BAD with the pending count and the rendered
  duration;
- a change line: the state the connection changed to;
- a log line: the state, the pending count and the delay.

Files:

- `wrappers.dfy`: `Option`, used for absent lookups and for calls that raise.
- `text.dfy`: Python's `sep.join` and `s.split(sep)`, cutting a string at its
  first separator, and prefix and suffix tests, with round-trip lemmas.
- `decimal.dfy`: `str()` of a Python int, and its parser.
- `seqs.dfy`: distinctness and subsequence.
- `link_model.dfy`: `State`, connections, `Link`, `LinkEvent`.
- `status_table.dfy`: the `status` command.
- `slack_message.dfy`: `state_to_mrkdwn`, the change text and
  `build_blocks_for_slack`.
- `dashboard.dfy`: `MonitorApp.compose`, `StatusEntry` and
  `MonitorApp.update_status`.

Where a source call would raise, the model returns `None`, or `Raised` for
`OnUpdate`. There are three such cases:

- `get_link` comes back absent, so reading `.state` fails;
- a status list has fewer than two entries, so `status[1]` fails;
- `get_link_update` comes back absent, so reading `.tx_seq` fails.

`merge_status` is not part of this model. `build_blocks_for_slack` indexes
`status[1]` unconditionally (btp2_monitor/main.py:49). An entry with fewer than
two statuses therefore raises, and `BuildBlocks` returns None for it.

## Model

| member | source | states |
|---|---|---|
| Text.Join | btp2_monitor/main.py:79 | `"\n".join` of one or more newline-free lines splits back into exactly those lines |
| Text.JoinSplit | btp2_monitor/main.py:79 | joining the pieces of a split text gives back the text |
| Decimal.IntToString | btp2_monitor/main.py:43 | `str()` of an int is a non-empty run of digits, with a leading minus sign exactly when the int is negative |
| Decimal.ParseIntToString | btp2_monitor/main.py:43 | the rendering of every int, negative ones included, parses back to the same int |
| Decimal.CutAfterInt | btp2_monitor/main.py:43 | a rendered int followed by a separator that is neither a digit nor a minus sign is cut off whole at that separator and parses back |
| Decimal.NatToString | btp2/monitor_ui.py:36 | a natural number renders as a non-empty run of digits with no leading zero |
| LinkModel.StateName | btp2/monitor_ui.py:36 | `state.upper()` is a non-empty run of capital letters that reads back as the same state |
| StatusTable.Pairs | btp2_monitor/main.py:108-112 | every listed connection is a known link whose reverse is also known; the listed connections keep the order of the known links; none comes after its own reverse, even when known links repeat |
| StatusTable.ForwardOnlyDropped | btp2_monitor/main.py:110-111 | a connection whose reverse is not known never gets a row |
| StatusTable.PairsFirstSeen | btp2_monitor/main.py:109-112 | with distinct known links, a known link is listed iff its reverse is known and does not come before it |
| StatusTable.PairsExactlyOnce | btp2_monitor/main.py:109-112 | with distinct known links, no row repeats and each mutual pair `{a,b}` with `a != b` is listed in exactly one direction |
| StatusTable.RepeatListedAgain | btp2_monitor/main.py:109-112 | a later occurrence of a connection already listed is appended again, unless the connection is its own reverse |
| StatusTable.PairsRepeatedLink | btp2_monitor/main.py:109-112 | an example: the known links (a,b),(b,a),(a,b) give two rows for (a,b) |
| StatusTable.RowsOf | btp2_monitor/main.py:115-121 | one row per connection, in order, with both end names; fails iff a counter lookup in either direction is absent |
| StatusTable.StatusRows | btp2_monitor/main.py:115-122 | one row per listed connection (a,b), in order, with both end names, FW pending `tx_seq - rx_seq` of (a,b) and BW pending that of (b,a); fails iff some listed connection lacks counters in either direction |
| StatusTable.StatusRowsComplete | btp2_monitor/main.py:115-119 | when every known link has counters, the whole table is produced |
| SlackMessage.StateToMrkdwn | btp2_monitor/main.py:39-43 | the status cell is the OK text iff the state is GOOD; otherwise it is the BAD text |
| SlackMessage.ReadStateToMrkdwn | btp2_monitor/main.py:39-43 | a status cell reads back as OK for GOOD, and as BAD with the link's own pending count and rendered duration otherwise |
| SlackMessage.EventLine | btp2_monitor/main.py:74-78 | a change line, read with its two end names, gives back the state after the change; it ends with the GOOD marker iff that state is GOOD and with the BAD marker iff it is BAD |
| SlackMessage.ChangeText | btp2_monitor/main.py:79 | with no events the change text is empty |
| SlackMessage.ChangeTextLines | btp2_monitor/main.py:73-79 | the change text has exactly one newline-separated line per event, in event order |
| SlackMessage.RowBlock | btp2_monitor/main.py:46-56 | a row block is built iff the status list has at least two entries |
| SlackMessage.RowBlocks | btp2_monitor/main.py:45-56 | one row block per merged entry, in order; fails iff some status list is shorter than two |
| SlackMessage.BuildBlocks | btp2_monitor/main.py:29-57 | the heading block first, then the row block of each merged entry in order, `1 + |link_status|` blocks in all; fails iff some status list is shorter than two |
| SlackMessage.RowBlockReadsBack | btp2_monitor/main.py:46-56 | a row block has two plain-text fields that read back as its two end names, then the cell of `status[0]` as forward and of `status[1]` as backward |
| SlackMessage.BuildBlocksRows | btp2_monitor/main.py:45-56 | block k+1 of a message has two plain-text fields that read back as entry k's end names and its forward and backward cells |
| SlackMessage.OnUpdate | btp2_monitor/main.py:70-88 | nothing is sent without a hook and a channel; a post carries the change text, exactly the blocks `build_blocks_for_slack` builds and username `BTP Monitor`; building the blocks can raise |
| Dashboard.Entries | btp2/monitor_ui.py:66-70 | the entries are keys in registry order; every key is an entry as itself or as its reverse; no entry repeats or sits beside its reverse; entry i comes before entry j only when entry i's key opens its relay link at an earlier position than entry j's key, even when keys repeat |
| Dashboard.EntriesFirstSeen | btp2/monitor_ui.py:67-70 | a connection is an entry iff it is the first key naming its relay link in either direction |
| Dashboard.ForwardOnlyKept | btp2/monitor_ui.py:67-70 | a key whose reverse is not a key always gets an entry |
| Dashboard.EntriesRepeatedKey | btp2/monitor_ui.py:68-69 | a key that repeats a key, or the reverse of a key, adds nothing |
| Dashboard.EntriesIdempotent | btp2/monitor_ui.py:67-70 | keys with one direction per relay link are kept unchanged, so building the entries twice changes nothing |
| Dashboard.CssClass | btp2/monitor_ui.py:38-45 | the class is bad iff the state is BAD, whatever the pending count; pending iff GOOD with a positive pending count; otherwise good |
| Dashboard.StateFromLink | btp2/monitor_ui.py:34-36 | the panel text reads back as the link's state, tx_seq, rx_seq, pending count and delay |
| Dashboard.UpdateStatus | btp2/monitor_ui.py:38-46 | a panel gets the class of its link, named `bad` iff BAD, `pending` iff GOOD with a positive pending count and `good` otherwise, and a text that reads back as that link |
| Dashboard.UpdateSelf | btp2/monitor_ui.py:48-52 | the forward panel shows `get_link(src,dst)` and the backward panel `get_link(dst,src)`; fails iff either lookup is absent |
| Dashboard.LogLine | btp2/monitor_ui.py:93 | a log line, read with its two end names, gives back the link's state, pending count and delay |
| Dashboard.LogLines | btp2/monitor_ui.py:92-93 | one log line per updated link, in order, each reading back as its own link's state, pending count and delay |
| Dashboard.RefreshPanels | btp2/monitor_ui.py:95-98 | every entry's panels are refreshed, in entry order; fails iff some entry's refresh fails |
| Dashboard.UpdateTick | btp2/monitor_ui.py:85-93 | the callback fires iff `changed`; the log is written iff changed and the update list is non-empty, and then holds the UPDATED header followed by exactly one line per updated link, in order |

## Left out

- The link-state engine is not part of this model. This covers `Links.update`,
  `query_status`, `merge_status`, hysteresis, persistence and `Links.keys`. It
  lives in `.monitor` and `.storage`. Its results are parameters.
- `name_of`, `get_link` and `get_link_update` are opaque function parameters.
  The operations assume nothing about their answers; the newline-free names
  three read-back lemmas need are listed below.
- Click command wiring, opening the networks file and `json.load` are left
  out (btp2_monitor/main.py:15-27, 60-68, 124-130). This is CLI and file I/O.
- `requests.post` to the Slack hook (btp2_monitor/main.py:88) is a network
  call. Only the message it would send is modelled (`OnUpdate`).
- Durations are carried as their `str()` text. `strfdelta` is an opaque
  string function, because it is a foreign helper and timedelta formatting is
  not part of this model.
- The status table's column padding and heading line are left out
  (btp2_monitor/main.py:114, 122). This is `str.format` alignment. A `Row`
  carries the values, not the padded text.
- The Textual app lifecycle is left out, because it is UI, timers and
  wall-clock time. This covers widget composition, border titles, CSS,
  `on_mount`, `set_interval`, the log file and the bottom status line
  (btp2/monitor_ui.py:20-32, 54-65, 71-83, 96;
  btp2_monitor/main.py:90-98). `datetime.now()` is the parameter `now`.
- The state names are an assumption. The lowercase values behind
  `Link.GOOD`/`Link.BAD` are not shown, so `StateName` renders `GOOD` and
  `BAD`.
- btp2_monitor/main.py:9 imports `MonitorApp` from `.cui`, which is not part
  of this model. So the shown source does not establish that the `monitor`
  command runs the dashboard in btp2/monitor_ui.py, or that the one-argument
  callback of btp2_monitor/main.py:70 is the one it calls.
- Dashboard.UpdateTick: assumes the callback returns. `MonitorApp.update_status` calls
  `self.__on_update()` with no argument (btp2/monitor_ui.py:89). With the
  default `on_update=None` (btp2/monitor_ui.py:58), or a callback that needs an
  argument, that call raises before the log writes at btp2/monitor_ui.py:90-93.
  The model records only the decision to fire.
- StatusTable.StatusRows: fails all or nothing. It builds its rows through
  `RowsOf`, so a lookup absent for a later connection drops the rows
  `show_status` has already echoed for the earlier ones
  (btp2_monitor/main.py:115-122).
- StatusTable.RowsOf, StatusTable.StatusRows, Dashboard.UpdateSelf,
  Dashboard.RefreshPanels and Dashboard.UpdateTick fail all or nothing. The
  source keeps effects made before the failing lookup:
  - `show_status` has already echoed the earlier rows (btp2_monitor/main.py:122);
  - `StatusEntry.update_self` has already updated the forward panel
    (btp2/monitor_ui.py:51) when the backward lookup is absent;
  - `MonitorApp.update_self` has already refreshed the earlier entries
    (btp2/monitor_ui.py:97-98).

  Each of them returns None and drops those partial effects.
- SlackMessage.ChangeTextLines, SlackMessage.RowBlockReadsBack and
  SlackMessage.BuildBlocksRows: hold only when the
  display names, and for the last two the rendered durations, contain no
  newline. A newline inside a name makes its line split into more pieces.
- StatusTable.PairsFirstSeen: requires distinct known links. With a repeat,
  a later copy of a listed link is listed again (`RepeatListedAgain`).
- StatusTable.PairsExactlyOnce: requires distinct known links, for the same
  reason.
- web/src/index.js is React start-up code with no logic.

=== FILE: dashboard.dfy ===
/** The terminal dashboard: which connections get a panel, the class and text
    of each direction's panel, and what one refresh tick logs and reports. */
module Dashboard {
  import opened Wrappers
  import opened Text
  import opened Decimal
  import opened Seqs
  import opened LinkModel

  // ---------------------------------------------------------------------------
  // Panel entries (`MonitorApp.compose`)
  // ---------------------------------------------------------------------------

  /** The keys of `entries` after the loop has looked at the first `n` keys of
      the registry: a connection is added unless it or its reverse is already
      an entry. */
  function EntriesFirst(keys: seq<Conn>, n: nat): seq<Conn>
    requires n <= |keys|
    decreases n
  {
    if n == 0 then []
    else
      var entries := EntriesFirst(keys, n - 1);
      var conn := keys[n - 1];
      if conn in entries || Reverse(conn) in entries then entries else entries + [conn]
  }

  /** The connections that get a dashboard panel, in insertion order. They
      are registry keys in registry order; every key has a panel in its own
      direction or the reverse one; and no entry repeats or sits beside its own
      reverse, whatever repetitions the keys hold. Entries come in the order
      in which their relay links first appear among the keys. */
  function Entries(keys: seq<Conn>): (r: seq<Conn>)
    ensures IsSubsequence(r, keys)
    ensures forall x :: x in r ==> x in keys
    ensures forall x :: x in keys ==> x in r || Reverse(x) in r
    ensures OnePerLink(r)
    ensures forall i, j :: 0 <= i < j < |r| ==> OpensBefore(keys, |keys|, r[i], r[j])
  {
    EntriesFirstCover(keys, |keys|);
    EntriesFirstOnePerLink(keys, |keys|);
    EntriesFirstSubsequence(keys, |keys|);
    EntriesFirstOrder(keys, |keys|);
    assert keys[..|keys|] == keys;
    EntriesFirst(keys, |keys|)
  }

  /** No entry repeats and no entry is the reverse of another. */
  predicate OnePerLink(entries: seq<Conn>)
  {
    forall i, j :: 0 <= i < |entries| && 0 <= j < |entries| && i != j ==>
      entries[i] != entries[j] && entries[i] != Reverse(entries[j])
  }

  lemma {:induction false} EntriesFirstCover(keys: seq<Conn>, n: nat)
    requires n <= |keys|
    ensures forall x :: x in EntriesFirst(keys, n) ==> x in keys[..n]
    ensures forall x :: x in keys[..n] ==> x in EntriesFirst(keys, n) || Reverse(x) in EntriesFirst(keys, n)
    decreases n
  {
    if n > 0 {
      EntriesFirstCover(keys, n - 1);
      assert keys[..n] == keys[..n - 1] + [keys[n - 1]];
    }
  }

  lemma {:induction false} EntriesFirstOnePerLink(keys: seq<Conn>, n: nat)
    requires n <= |keys|
    ensures OnePerLink(EntriesFirst(keys, n))
    decreases n
  {
    if n > 0 {
      EntriesFirstOnePerLink(keys, n - 1);
    }
  }

  lemma {:induction false} EntriesFirstSubsequence(keys: seq<Conn>, n: nat)
    requires n <= |keys|
    ensures IsSubsequence(EntriesFirst(keys, n), keys[..n])
    decreases n
  {
    if n > 0 {
      EntriesFirstSubsequence(keys, n - 1);
      var prev := EntriesFirst(keys, n - 1);
      var cur := EntriesFirst(keys, n);
      assert keys[..n][..n - 1] == keys[..n - 1];
      if cur != prev {
        assert cur[..|cur| - 1] == prev;
      }
    }
  }

  /** `keys[j]` is the first key naming its relay link, in either direction. */
  predicate OpensLink(keys: seq<Conn>, j: nat)
    requires j < |keys|
  {
    keys[j] !in keys[..j] && Reverse(keys[j]) !in keys[..j]
  }

  /** `x` is a key that opens its relay link among the first `n` keys. */
  predicate OpensWithin(keys: seq<Conn>, n: nat, x: Conn)
    requires n <= |keys|
  {
    exists j :: 0 <= j < n && keys[j] == x && OpensLink(keys, j)
  }

  /** Looking at one more key adds exactly that key, when it opens its link. */
  lemma OpensWithinStep(keys: seq<Conn>, n: nat, x: Conn)
    requires 0 < n <= |keys|
    ensures OpensWithin(keys, n, x) <==> OpensWithin(keys, n - 1, x) || (x == keys[n - 1] && OpensLink(keys, n - 1))
  {
  }

  /** The loop skips the key at position `m` exactly when it or its reverse
      came earlier. */
  lemma SkipIffSeen(keys: seq<Conn>, m: nat)
    requires m < |keys|
    ensures keys[m] in EntriesFirst(keys, m) || Reverse(keys[m]) in EntriesFirst(keys, m) <==> !OpensLink(keys, m)
  {
    EntriesFirstCover(keys, m);
    assert Reverse(Reverse(keys[m])) == keys[m];
  }

  lemma {:induction false} EntriesFirstFirstSeen(keys: seq<Conn>, n: nat)
    requires n <= |keys|
    ensures forall x :: x in EntriesFirst(keys, n) <==> OpensWithin(keys, n, x)
    decreases n
  {
    if n > 0 {
      EntriesFirstFirstSeen(keys, n - 1);
      SkipIffSeen(keys, n - 1);
      forall x ensures x in EntriesFirst(keys, n) <==> OpensWithin(keys, n, x) {
        OpensWithinStep(keys, n, x);
      }
    }
  }

  /** Among the first `n` keys, `x` opens its relay link before `y` opens
      its own. */
  predicate OpensBefore(keys: seq<Conn>, n: nat, x: Conn, y: Conn)
    requires n <= |keys|
  {
    exists a, b :: 0 <= a < b < n && keys[a] == x && keys[b] == y && OpensLink(keys, a) && OpensLink(keys, b)
  }

  lemma {:induction false} EntriesFirstOrder(keys: seq<Conn>, n: nat)
    requires n <= |keys|
    ensures forall i, j :: 0 <= i < j < |EntriesFirst(keys, n)| ==>
      OpensBefore(keys, n, EntriesFirst(keys, n)[i], EntriesFirst(keys, n)[j])
    decreases n
  {
    if n > 0 {
      var prev := EntriesFirst(keys, n - 1);
      var cur := EntriesFirst(keys, n);
      EntriesFirstOrder(keys, n - 1);
      forall i, j | 0 <= i < j < |prev|
        ensures OpensBefore(keys, n, prev[i], prev[j])
      {
        assert OpensBefore(keys, n - 1, prev[i], prev[j]);
        var a, b :| 0 <= a < b < n - 1 && keys[a] == prev[i] && keys[b] == prev[j] && OpensLink(keys, a) && OpensLink(keys, b);
      }
      if cur != prev {
        assert cur == prev + [keys[n - 1]];
        SkipIffSeen(keys, n - 1);
        EntriesFirstFirstSeen(keys, n - 1);
        forall i | 0 <= i < |prev|
          ensures OpensBefore(keys, n, prev[i], keys[n - 1])
        {
          assert prev[i] in prev;
          var a :| 0 <= a < n - 1 && keys[a] == prev[i] && OpensLink(keys, a);
        }
      }
    }
  }

  /** A registry key has a panel in its own direction exactly when it is the
      first of the keys that name its relay link in either direction. In
      particular a forward-only connection always gets a panel. */
  lemma EntriesFirstSeen(keys: seq<Conn>)
    ensures forall x :: x in Entries(keys) <==>
      exists j :: 0 <= j < |keys| && keys[j] == x && keys[j] !in keys[..j] && Reverse(keys[j]) !in keys[..j]
  {
    EntriesFirstFirstSeen(keys, |keys|);
  }

  /** A connection whose reverse is not a registry key keeps its panel. */
  lemma ForwardOnlyKept(keys: seq<Conn>, c: Conn)
    requires c in keys && Reverse(c) !in keys
    ensures c in Entries(keys)
  {
  }

  /** The entries depend only on the keys looked at so far. */
  lemma {:induction false} EntriesFirstPrefix(keys: seq<Conn>, more: seq<Conn>, n: nat)
    requires n <= |keys|
    ensures EntriesFirst(keys + more, n) == EntriesFirst(keys, n)
    decreases n
  {
    if n > 0 {
      EntriesFirstPrefix(keys, more, n - 1);
      assert (keys + more)[n - 1] == keys[n - 1];
    }
  }

  /** A repeated registry key adds nothing. */
  lemma EntriesRepeatedKey(keys: seq<Conn>, c: Conn)
    requires c in keys || Reverse(c) in keys
    ensures Entries(keys + [c]) == Entries(keys)
  {
    var prev := Entries(keys);
    assert Reverse(Reverse(c)) == c;
    assert c in prev || Reverse(c) in prev;
    EntriesFirstPrefix(keys, [c], |keys|);
    assert (keys + [c])[|keys|] == c;
    assert EntriesFirst(keys + [c], |keys| + 1) == prev;
  }

  lemma {:induction false} EntriesFirstKeepsAll(keys: seq<Conn>, n: nat)
    requires n <= |keys|
    requires OnePerLink(keys)
    ensures EntriesFirst(keys, n) == keys[..n]
    decreases n
  {
    if n > 0 {
      EntriesFirstKeepsAll(keys, n - 1);
      assert keys[..n] == keys[..n - 1] + [keys[n - 1]];
    }
  }

  /** Keys with one direction per relay link become entries unchanged; in
      particular building the entries twice changes nothing. */
  lemma EntriesIdempotent(keys: seq<Conn>)
    ensures OnePerLink(keys) ==> Entries(keys) == keys
    ensures Entries(Entries(keys)) == Entries(keys)
  {
    if OnePerLink(keys) {
      EntriesFirstKeepsAll(keys, |keys|);
      assert keys[..|keys|] == keys;
    }
    EntriesFirstKeepsAll(Entries(keys), |Entries(keys)|);
    assert Entries(keys)[..|Entries(keys)|] == Entries(keys);
  }

  // ---------------------------------------------------------------------------
  // One direction's panel (`StatusEntry.update_status`, `state_from_link`)
  // ---------------------------------------------------------------------------

  /** The CSS class a direction's panel gets. */
  datatype Css = Bad | Pending | Good

  /** The class name `set_classes` receives. */
  function CssName(c: Css): string
  {
    match c
    case Bad => "bad"
    case Pending => "pending"
    case Good => "good"
  }

  /** The class of a direction's panel: bad whenever the link is BAD, whatever
      its pending count; otherwise pending exactly when messages are pending;
      otherwise good. */
  function CssClass(link: Link): (r: Css)
    ensures r == Bad <==> link.state == BAD
    ensures r == Pending <==> link.state == GOOD && link.pendingCount > 0
    ensures r == Good <==> link.state == GOOD && link.pendingCount <= 0
  {
    if link.state.BAD? then Bad
    else if link.pendingCount > 0 then Pending
    else Good
  }

  /** `state_from_link`: the panel text, three lines. It reads back as the
      link's state, counters, pending count and delay. */
  function StateFromLink(link: Link): (r: string)
    ensures ReadPanel(r) == Some(ReadingOf(link))
  {
    var afterOpen := StateName(link.state) + ("[/b]\ntx_seq=" + CountersText(link.txSeq, link.rxSeq, link.pendingCount, link.pendingDuration));
    StripPrefixConcat("[b]", afterOpen);
    ReadBoldStateOf(link);
    "[b]" + afterOpen
  }

  /** The panel text after the state: the counters, then the last line. */
  function CountersText(txSeq: nat, rxSeq: nat, pendingCount: int, delay: string): string
  {
    IntToString(txSeq) + (", rx_seq=" + RxText(rxSeq, pendingCount, delay))
  }

  /** The panel text from the receive counter on. */
  function RxText(rxSeq: nat, pendingCount: int, delay: string): string
  {
    IntToString(rxSeq) + ("\n" + PendingText(pendingCount, delay))
  }

  /** The last line of a panel text. */
  function PendingText(pendingCount: int, delay: string): string
  {
    "pending=" + (IntToString(pendingCount) + (", delay=" + delay))
  }

  /** What a panel text says about its link. */
  datatype PanelReading = PanelReading(state: State, txSeq: nat, rxSeq: nat, pendingCount: int, delay: string)

  /** What a panel text should say about `link`. */
  function ReadingOf(link: Link): PanelReading
  {
    PanelReading(link.state, link.txSeq, link.rxSeq, link.pendingCount, link.pendingDuration)
  }

  /** Reads the last line of a panel text back: the pending count and delay. */
  function ReadPendingText(text: string): Option<(int, string)>
  {
    var afterPending :- StripPrefix("pending=", text);
    var pending :- Cut(afterPending, ',');
    var pendingCount :- ParseInt(pending.0);
    var delay :- StripPrefix(" delay=", pending.1);
    Some((pendingCount, delay))
  }

  /** Reads a panel text back from the receive counter on. */
  function ReadRxText(text: string): Option<(nat, int, string)>
  {
    var rx :- Cut(text, '\n');
    var rxSeq :- ParseNat(rx.0);
    var last :- ReadPendingText(rx.1);
    Some((rxSeq, last.0, last.1))
  }

  /** Reads the counters of a panel text back, then its last line. */
  function ReadCountersText(text: string): Option<(nat, nat, int, string)>
  {
    var tx :- Cut(text, ',');
    var txSeq :- ParseNat(tx.0);
    var afterRx :- StripPrefix(" rx_seq=", tx.1);
    var rest :- ReadRxText(afterRx);
    Some((txSeq, rest.0, rest.1, rest.2))
  }

  /** Reads a panel text back; None for text of any other shape. */
  function ReadPanel(text: string): Option<PanelReading>
  {
    var afterOpen :- StripPrefix("[b]", text);
    ReadBoldState(afterOpen)
  }

  /** Reads a panel text back from the state name on. */
  function ReadBoldState(text: string): Option<PanelReading>
  {
    var name :- Cut(text, '[');
    var state :- ParseState(name.0);
    var afterTx :- StripPrefix("/b]\ntx_seq=", name.1);
    var counters :- ReadCountersText(afterTx);
    Some(PanelReading(state, counters.0, counters.1, counters.2, counters.3))
  }

  lemma ReadPendingTextOf(pendingCount: int, delay: string)
    ensures ReadPendingText(PendingText(pendingCount, delay)) == Some((pendingCount, delay))
  {
    var afterPending := IntToString(pendingCount) + (", delay=" + delay);
    StripPrefixConcat("pending=", afterPending);
    assert ", delay=" + delay == [','] + (" delay=" + delay);
    CutAfterInt(pendingCount, ',', " delay=" + delay);
    StripPrefixConcat(" delay=", delay);
  }

  lemma ReadRxTextOf(rxSeq: nat, pendingCount: int, delay: string)
    ensures ReadRxText(RxText(rxSeq, pendingCount, delay)) == Some((rxSeq, pendingCount, delay))
  {
    var last := PendingText(pendingCount, delay);
    assert "\n" + last == ['\n'] + last;
    CutAfterNat(rxSeq, '\n', last);
    ReadPendingTextOf(pendingCount, delay);
  }

  lemma ReadCountersTextOf(txSeq: nat, rxSeq: nat, pendingCount: int, delay: string)
    ensures ReadCountersText(CountersText(txSeq, rxSeq, pendingCount, delay))
      == Some((txSeq, rxSeq, pendingCount, delay))
  {
    var afterRx := RxText(rxSeq, pendingCount, delay);
    assert ", rx_seq=" + afterRx == [','] + (" rx_seq=" + afterRx);
    CutAfterNat(txSeq, ',', " rx_seq=" + afterRx);
    StripPrefixConcat(" rx_seq=", afterRx);
    ReadRxTextOf(rxSeq, pendingCount, delay);
  }

  lemma ReadBoldStateOf(link: Link)
    ensures ReadBoldState(StateName(link.state) + ("[/b]\ntx_seq=" + CountersText(link.txSeq, link.rxSeq, link.pendingCount, link.pendingDuration)))
      == Some(ReadingOf(link))
  {
    var name := StateName(link.state);
    var afterTx := CountersText(link.txSeq, link.rxSeq, link.pendingCount, link.pendingDuration);
    assert "[/b]\ntx_seq=" + afterTx == ['['] + ("/b]\ntx_seq=" + afterTx);
    assert '[' !in name;
    CutConcat(name, '[', "/b]\ntx_seq=" + afterTx);
    StripPrefixConcat("/b]\ntx_seq=", afterTx);
    ReadCountersTextOf(link.txSeq, link.rxSeq, link.pendingCount, link.pendingDuration);
  }

  /** A direction's panel: its class and its text. */
  datatype Panel = Panel(css: Css, text: string)

  /** `update_status(w, link)`: the panel shows `link`. */
  function UpdateStatus(link: Link): (p: Panel)
    ensures p.css == CssClass(link)
    ensures CssName(p.css) == "bad" <==> link.state == BAD
    ensures CssName(p.css) == "pending" <==> link.state == GOOD && link.pendingCount > 0
    ensures CssName(p.css) == "good" <==> link.state == GOOD && link.pendingCount <= 0
    ensures ReadPanel(p.text) == Some(ReadingOf(link))
  {
    Panel(CssClass(link), StateFromLink(link))
  }

  /** `StatusEntry.update_self`: the forward panel of the entry for `conn`
      shows `get_link(src, dst)` and the backward panel `get_link(dst, src)`.
      None when either lookup is absent (the monitor then fails reading the
      state of nothing). */
  function UpdateSelf(conn: Conn, getLink: Conn -> Option<Link>): (r: Option<(Panel, Panel)>)
    ensures r.Some? <==> getLink(conn).Some? && getLink(Reverse(conn)).Some?
    ensures r.Some? ==>
      && r.value.0.css == CssClass(getLink(conn).value)
      && ReadPanel(r.value.0.text) == Some(ReadingOf(getLink(conn).value))
      && r.value.1.css == CssClass(getLink(Reverse(conn)).value)
      && ReadPanel(r.value.1.text) == Some(ReadingOf(getLink(Reverse(conn)).value))
  {
    var fw :- getLink(conn);
    var bw :- getLink(Reverse(conn));
    Some((UpdateStatus(fw), UpdateStatus(bw)))
  }

  // ---------------------------------------------------------------------------
  // One refresh tick (`MonitorApp.update_status`)
  // ---------------------------------------------------------------------------

  /** The log line for one updated link. Read with the display names of its
      ends, it gives back the link's state, pending count and delay. */
  function LogLine(link: Link, nameOf: string -> string): (r: string)
    ensures ReadLogLine(r, nameOf(link.src), nameOf(link.dst))
      == Some(LogReading(link.state, link.pendingCount, link.pendingDuration))
  {
    var tail := LogTail(link);
    var afterDst := " : " + tail;
    var afterArrow := nameOf(link.dst) + afterDst;
    var afterSrc := " -> " + afterArrow;
    var afterStar := nameOf(link.src) + afterSrc;
    StripPrefixConcat("* ", afterStar);
    StripPrefixConcat(nameOf(link.src), afterSrc);
    StripPrefixConcat(" -> ", afterArrow);
    StripPrefixConcat(nameOf(link.dst), afterDst);
    StripPrefixConcat(" : ", tail);
    ReadLogTailOf(link);
    "* " + afterStar
  }

  /** The part of a log line after the end names. */
  function LogTail(link: Link): string
  {
    StateName(link.state) + (" pending=" + LogCounts(link.pendingCount, link.pendingDuration))
  }

  /** The part of a log line after `pending=`. */
  function LogCounts(pendingCount: int, delay: string): string
  {
    IntToString(pendingCount) + (" delay=" + delay)
  }

  /** What a log line says about its link. */
  datatype LogReading = LogReading(state: State, pendingCount: int, delay: string)

  /** Reads the part of a log line after `pending=` back. */
  function ReadLogCounts(text: string): Option<(int, string)>
  {
    var pending :- Cut(text, ' ');
    var pendingCount :- ParseInt(pending.0);
    var delay :- StripPrefix("delay=", pending.1);
    Some((pendingCount, delay))
  }

  /** Reads the part of a log line after the end names back. */
  function ReadLogTail(text: string): Option<LogReading>
  {
    var name :- Cut(text, ' ');
    var state :- ParseState(name.0);
    var afterPending :- StripPrefix("pending=", name.1);
    var counts :- ReadLogCounts(afterPending);
    Some(LogReading(state, counts.0, counts.1))
  }

  /** Reads the log line of the link between `srcName` and `dstName` back;
      None for a line of any other shape. */
  function ReadLogLine(line: string, srcName: string, dstName: string): Option<LogReading>
  {
    var afterStar :- StripPrefix("* ", line);
    var afterSrc :- StripPrefix(srcName, afterStar);
    var afterArrow :- StripPrefix(" -> ", afterSrc);
    var afterDst :- StripPrefix(dstName, afterArrow);
    var tail :- StripPrefix(" : ", afterDst);
    ReadLogTail(tail)
  }

  lemma ReadLogCountsOf(pendingCount: int, delay: string)
    ensures ReadLogCounts(LogCounts(pendingCount, delay)) == Some((pendingCount, delay))
  {
    assert " delay=" + delay == [' '] + ("delay=" + delay);
    CutAfterInt(pendingCount, ' ', "delay=" + delay);
    StripPrefixConcat("delay=", delay);
  }

  lemma ReadLogTailOf(link: Link)
    ensures ReadLogTail(LogTail(link)) == Some(LogReading(link.state, link.pendingCount, link.pendingDuration))
  {
    var name := StateName(link.state);
    var counts := LogCounts(link.pendingCount, link.pendingDuration);
    assert " pending=" + counts == [' '] + ("pending=" + counts);
    assert ' ' !in name;
    CutConcat(name, ' ', "pending=" + counts);
    StripPrefixConcat("pending=", counts);
    ReadLogCountsOf(link.pendingCount, link.pendingDuration);
  }

  /** The log lines for the updated links, one per link, in order; each reads
      back as its link. */
  function LogLines(updated: seq<Link>, nameOf: string -> string): (r: seq<string>)
    ensures |r| == |updated|
    ensures forall k :: 0 <= k < |r| ==>
      ReadLogLine(r[k], nameOf(updated[k].src), nameOf(updated[k].dst))
        == Some(LogReading(updated[k].state, updated[k].pendingCount, updated[k].pendingDuration))
    decreases |updated|
  {
    if |updated| == 0 then []
    else
      [LogLine(updated[0], nameOf)] + LogLines(updated[1..], nameOf)
  }

  /** `MonitorApp.update_self`: the panels of every entry, in entry order;
      None when a lookup is absent. */
  function RefreshPanels(entries: seq<Conn>, getLink: Conn -> Option<Link>): (r: Option<seq<(Panel, Panel)>>)
    ensures r.Some? <==> forall k :: 0 <= k < |entries| ==>
      getLink(entries[k]).Some? && getLink(Reverse(entries[k])).Some?
    ensures r.Some? ==> |r.value| == |entries| && forall k :: 0 <= k < |entries| ==>
      Some(r.value[k]) == UpdateSelf(entries[k], getLink)
  {
    Traverse(entries, conn => UpdateSelf(conn, getLink))
  }

  /** The outcome of one tick: the refreshed panels, whether the update
      callback fired, and the lines written to the log. */
  datatype Refresh = Refresh(panels: seq<(Panel, Panel)>, fired: bool, log: seq<string>)

  /** `MonitorApp.update_status` after `links.update()` returned `(changed,
      updated)`: refresh every entry's panels, fire the callback exactly when
      something changed, and log an UPDATED header followed by one line per
      updated link only when that list is not empty. `now` is the wall-clock
      text. None when refreshing a panel fails. */
  function UpdateTick(
    changed: bool,
    updated: seq<Link>,
    entries: seq<Conn>,
    getLink: Conn -> Option<Link>,
    now: string,
    nameOf: string -> string): (r: Option<Refresh>)
    ensures r.Some? <==> RefreshPanels(entries, getLink).Some?
    ensures r.Some? ==>
      && r.value.panels == RefreshPanels(entries, getLink).value
      && r.value.fired == changed
      && (|r.value.log| > 0 <==> changed && |updated| > 0)
      && (|r.value.log| > 0 ==>
            && |r.value.log| == 1 + |updated|
            && r.value.log[0] == now + ": UPDATED"
            && forall k :: 0 <= k < |updated| ==>
                 ReadLogLine(r.value.log[k + 1], nameOf(updated[k].src), nameOf(updated[k].dst))
                   == Some(LogReading(updated[k].state, updated[k].pendingCount, updated[k].pendingDuration)))
  {
    var panels :- RefreshPanels(entries, getLink);
    if changed && |updated| > 0 then
      Some(Refresh(panels, true, [now + ": UPDATED"] + LogLines(updated, nameOf)))
    else
      Some(Refresh(panels, changed, []))
  }
}

=== FILE: decimal.dfy ===
/** Python's `str(i)` / f-string rendering of an integer, and the parser that
    reads such a rendering back. */
module Decimal {
  import opened Wrappers
  import opened Text

  predicate IsDigit(c: char)
  {
    '0' <= c <= '9'
  }

  function DigitChar(d: nat): (c: char)
    requires d < 10
    ensures IsDigit(c)
  {
    ('0' as int + d) as char
  }

  /** The value of a decimal digit character, or None for any other character. */
  function DigitValue(c: char): (r: Option<nat>)
    ensures r.Some? <==> IsDigit(c)
    ensures r.Some? ==> r.value < 10 && DigitChar(r.value) == c
  {
    if IsDigit(c) then Some(c as int - '0' as int) else None
  }

  /** The decimal digits of `n`, most significant first, without leading zeros. */
  function NatToString(n: nat): (r: string)
    ensures |r| > 0
    ensures forall k :: 0 <= k < |r| ==> IsDigit(r[k])
    ensures |r| > 1 ==> r[0] != '0'
    decreases n
  {
    if n < 10 then [DigitChar(n)]
    else NatToString(n / 10) + [DigitChar(n % 10)]
  }

  /** `str(i)` for a Python int: a minus sign before the digits of a negative number. */
  function IntToString(i: int): (r: string)
    ensures |r| > 0
    ensures forall k :: 0 <= k < |r| ==> IsDigit(r[k]) || (k == 0 && r[k] == '-')
    ensures r[0] == '-' <==> i < 0
  {
    if i < 0 then "-" + NatToString(-i) else NatToString(i)
  }

  /** The number a non-empty run of decimal digits denotes, or None. */
  function ParseNat(s: string): (r: Option<nat>)
    ensures r.Some? <==> |s| > 0 && forall k :: 0 <= k < |s| ==> IsDigit(s[k])
    decreases |s|
  {
    if |s| == 0 then None
    else
      var d :- DigitValue(s[|s| - 1]);
      if |s| == 1 then Some(d)
      else
        var h :- ParseNat(s[..|s| - 1]);
        Some(10 * h + d)
  }

  /** The integer an optional minus sign followed by decimal digits denotes, or None. */
  function ParseInt(s: string): Option<int>
  {
    if |s| > 0 && s[0] == '-' then
      var m :- ParseNat(s[1..]);
      var negated := -(m as int);
      Some(negated)
    else
      var m :- ParseNat(s);
      Some(m)
  }

  /** Every natural number is read back from its digits. */
  lemma {:induction false} ParseNatToString(n: nat)
    ensures ParseNat(NatToString(n)) == Some(n)
    decreases n
  {
    if n >= 10 {
      var s := NatToString(n);
      ParseNatToString(n / 10);
      assert s[..|s| - 1] == NatToString(n / 10);
      assert DigitValue(s[|s| - 1]) == Some(n % 10);
    }
  }

  /** Every integer is read back from its rendering. */
  lemma ParseIntToString(i: int)
    ensures ParseInt(IntToString(i)) == Some(i)
  {
    if i < 0 {
      ParseNatToString(-i);
      assert ("-" + NatToString(-i))[1..] == NatToString(-i);
    } else {
      ParseNatToString(i);
    }
  }

  /** A rendered integer never contains a character other than digits and a
      leading minus sign, so any such character can delimit it. */
  lemma NoOtherCharIn(i: int, c: char)
    requires !IsDigit(c) && c != '-'
    ensures c !in IntToString(i)
  {
  }

  /** A rendered integer followed by a separator that is neither a digit nor a
      minus sign is cut off whole at that separator, and parses back. */
  lemma CutAfterInt(i: int, sep: char, rest: string)
    requires !IsDigit(sep) && sep != '-'
    ensures Cut(IntToString(i) + ([sep] + rest), sep) == Some((IntToString(i), rest))
    ensures ParseInt(IntToString(i)) == Some(i)
  {
    NoOtherCharIn(i, sep);
    CutConcat(IntToString(i), sep, rest);
    ParseIntToString(i);
  }

  /** The same for a rendered natural number and its natural-number parser. */
  lemma CutAfterNat(n: nat, sep: char, rest: string)
    requires !IsDigit(sep) && sep != '-'
    ensures Cut(IntToString(n) + ([sep] + rest), sep) == Some((IntToString(n), rest))
    ensures ParseNat(IntToString(n)) == Some(n)
  {
    NoOtherCharIn(n, sep);
    CutConcat(IntToString(n), sep, rest);
    ParseNatToString(n);
  }
}

=== FILE: link_model.dfy ===
/** The values the monitor's front ends receive from the link-state registry.
    The registry itself (`Links`, `merge_status`, the polling engine) is not
    part of this model; its accessors appear as parameters of the operations
    that call them. */
module LinkModel {
  import opened Wrappers

  /** Health of one directed connection, `Link.GOOD` or `Link.BAD`. */
  datatype State = GOOD | BAD

  /** A directed connection `(src, dst)` between two networks, by network id. */
  type Conn = (string, string)

  /** The same relay link in the other direction. */
  function Reverse(c: Conn): Conn
  {
    (c.1, c.0)
  }

  /** The registry's current view of one connection. `pendingDuration` is the
      pending time as `str()` renders it. */
  datatype Link = Link(
    src: string,
    dst: string,
    state: State,
    txSeq: nat,
    rxSeq: nat,
    pendingCount: int,
    pendingDuration: string)

  /** A health transition of one connection as the notifier sees it: the
      display names of its ends and the state after the change. */
  datatype LinkEvent = LinkEvent(srcName: string, dstName: string, after: State)

  /** The sequence counters a one-shot status query reports for a connection. */
  datatype SeqUpdate = SeqUpdate(txSeq: nat, rxSeq: nat)

  /** Messages sent on a connection and not yet received: `tx_seq - rx_seq`. */
  function PendingOf(u: SeqUpdate): int
  {
    u.txSeq - u.rxSeq
  }

  /** Reads a state name back; None for any other text. */
  function ParseState(name: string): Option<State>
  {
    if name == "GOOD" then Some(GOOD)
    else if name == "BAD" then Some(BAD)
    else None
  }

  /** `state.upper()`: the state's name in capital letters. */
  function StateName(s: State): (r: string)
    ensures |r| > 0
    ensures forall k :: 0 <= k < |r| ==> 'A' <= r[k] <= 'Z'
    ensures ParseState(r) == Some(s)
  {
    match s
    case GOOD => "GOOD"
    case BAD => "BAD"
  }
}

=== FILE: seqs.dfy ===
/** Order facts about sequences used by the monitor's list-building loops. */
module Seqs {

  /** No element occurs twice. */
  predicate Distinct<T(==)>(s: seq<T>)
  {
    forall i, j :: 0 <= i < j < |s| ==> s[i] != s[j]
  }

  /** `r` is `s` with some elements deleted, the rest kept in their order. */
  predicate IsSubsequence<T(==)>(r: seq<T>, s: seq<T>)
    decreases |s|
  {
    if |r| == 0 then true
    else if |s| == 0 then false
    else
      (r[|r| - 1] == s[|s| - 1] && IsSubsequence(r[..|r| - 1], s[..|s| - 1]))
      || IsSubsequence(r, s[..|s| - 1])
  }
}

=== FILE: slack_message.dfy ===
/** The Slack notification the `monitor` command sends when link health
    changes: the one-line-per-event change text, the status cell of each
    direction, and the block list of the message. */
module SlackMessage {
  import opened Wrappers
  import opened Text
  import opened Decimal
  import opened LinkModel

  /** Status cell of a healthy direction. */
  const OkText: string := ":large_green_circle: OK"

  /** Start of the status cell of an unhealthy direction, before its pending count. */
  const BadPrefix: string := ":red_circle: BAD (cnt="

  /** What a status cell says about its direction: OK, or BAD with the
      pending count and the rendered pending duration. */
  datatype Mark = OkMark | BadMark(count: int, duration: string)

  /** `state_to_mrkdwn`: the status cell of one direction; `strfdelta` renders
      the pending duration. */
  function StateToMrkdwn(link: Link, strfdelta: string -> string): (r: string)
    ensures r == OkText <==> link.state == GOOD
    ensures link.state == BAD ==> BadPrefix <= r
  {
    if link.state == GOOD then OkText
    else
      var r := BadPrefix + (IntToString(link.pendingCount) + (",dur=" + (strfdelta(link.pendingDuration) + ")")));
      assert r[1] != OkText[1];
      r
  }

  /** Reads a status cell back: OK, or BAD with its pending count and
      duration text. */
  function ReadMrkdwn(text: string): Option<Mark>
  {
    if text == OkText then Some(OkMark)
    else
      var rest :- StripPrefix(BadPrefix, text);
      ReadBadCell(rest)
  }

  /** Reads the part of a BAD cell after its prefix back. */
  function ReadBadCell(text: string): Option<Mark>
  {
    var count :- Cut(text, ',');
    var n :- ParseInt(count.0);
    var closed :- StripPrefix("dur=", count.1);
    var duration :- ReadClosed(closed);
    Some(BadMark(n, duration))
  }

  /** The text before a closing parenthesis that ends `text`. */
  function ReadClosed(text: string): Option<string>
  {
    if |text| > 0 && text[|text| - 1] == ')' then Some(text[..|text| - 1]) else None
  }

  /** What a status cell should say about `link`. */
  function MarkOf(link: Link, strfdelta: string -> string): Mark
  {
    if link.state == GOOD then OkMark else BadMark(link.pendingCount, strfdelta(link.pendingDuration))
  }

  /** A status cell reads back as OK for a healthy direction, and as BAD with
      the link's pending count and rendered duration for an unhealthy one. */
  lemma ReadStateToMrkdwn(link: Link, strfdelta: string -> string)
    ensures ReadMrkdwn(StateToMrkdwn(link, strfdelta)) == Some(MarkOf(link, strfdelta))
  {
    if link.state == BAD {
      var rest := IntToString(link.pendingCount) + (",dur=" + (strfdelta(link.pendingDuration) + ")"));
      StripPrefixConcat(BadPrefix, rest);
      ReadBadCellOf(link.pendingCount, strfdelta(link.pendingDuration));
    }
  }

  lemma ReadBadCellOf(count: int, duration: string)
    ensures ReadBadCell(IntToString(count) + (",dur=" + (duration + ")"))) == Some(BadMark(count, duration))
  {
    var closed := duration + ")";
    assert ",dur=" + closed == [','] + ("dur=" + closed);
    CutAfterInt(count, ',', "dur=" + closed);
    StripPrefixConcat("dur=", closed);
    assert closed[..|closed| - 1] == duration;
  }

  /** Marker ending a change line for a connection that became healthy. */
  const GoodMarker: string := ":large_green_circle: *GOOD*"

  /** Marker ending a change line for a connection that became unhealthy. */
  const BadMarker: string := ":red_circle: *BAD*"

  /** The marker for the state a connection changed to. */
  function MarkerOf(after: State): string
  {
    if after == GOOD then GoodMarker else BadMarker
  }

  /** Reads a marker back as the state it stands for. */
  function ReadMarker(text: string): Option<State>
  {
    if text == GoodMarker then Some(GOOD)
    else if text == BadMarker then Some(BAD)
    else None
  }

  /** A text ending with a state's marker ends with the GOOD marker exactly when
      the state is GOOD, and with the BAD marker exactly when it is BAD. */
  lemma MarkerSuffix(head: string, after: State)
    ensures EndsWith(head + MarkerOf(after), GoodMarker) <==> after == GOOD
    ensures EndsWith(head + MarkerOf(after), BadMarker) <==> after == BAD
  {
    var line := head + MarkerOf(after);
    if after == GOOD {
      assert line[|line| - 3] == 'O' != BadMarker[|BadMarker| - 3];
    } else if |GoodMarker| <= |line| {
      assert line[|line| - 3] == 'A' != GoodMarker[|GoodMarker| - 3];
    }
  }

  /** The change text's line for one event: the display names of both ends
      and the marker of the state the connection changed to. It reads back as
      that state, and ends with the GOOD marker exactly when the connection
      became healthy and with the BAD marker exactly when it did not. */
  function EventLine(e: LinkEvent): (r: string)
    ensures ReadEventLine(r, e.srcName, e.dstName) == Some(e.after)
    ensures EndsWith(r, GoodMarker) <==> e.after == GOOD
    ensures EndsWith(r, BadMarker) <==> e.after == BAD
  {
    var marker := MarkerOf(e.after);
    ReadEventLineOf(e.srcName, e.dstName, e.after);
    EventLineEndsWithMarker(e.srcName, e.dstName, marker);
    MarkerSuffix(e.srcName + (" -> " + (e.dstName + " : ")), e.after);
    e.srcName + (" -> " + (e.dstName + (" : " + marker)))
  }

  /** A change line is the text before its marker, then the marker. */
  lemma EventLineEndsWithMarker(srcName: string, dstName: string, marker: string)
    ensures srcName + (" -> " + (dstName + (" : " + marker)))
      == (srcName + (" -> " + (dstName + " : "))) + marker
  {
  }

  lemma ReadEventLineOf(srcName: string, dstName: string, after: State)
    ensures ReadEventLine(srcName + (" -> " + (dstName + (" : " + MarkerOf(after)))), srcName, dstName) == Some(after)
  {
  }

  /** Reads the change line of the connection between `srcName` and `dstName`
      back as the state it changed to; None for a line of any other shape. */
  function ReadEventLine(line: string, srcName: string, dstName: string): Option<State>
  {
    var afterSrc :- StripPrefix(srcName, line);
    var afterArrow :- StripPrefix(" -> ", afterSrc);
    var afterDst :- StripPrefix(dstName, afterArrow);
    var marker :- StripPrefix(" : ", afterDst);
    ReadMarker(marker)
  }

  /** The change lines, one per event, in event order. */
  function EventLines(events: seq<LinkEvent>): (r: seq<string>)
    ensures |r| == |events|
    ensures forall k :: 0 <= k < |r| ==> r[k] == EventLine(events[k])
    decreases |events|
  {
    if |events| == 0 then []
    else [EventLine(events[0])] + EventLines(events[1..])
  }

  /** A change line is one line when the display names are. */
  lemma NoNewlineInEventLine(e: LinkEvent)
    requires '\n' !in e.srcName && '\n' !in e.dstName
    ensures '\n' !in EventLine(e)
  {
    var marker := MarkerOf(e.after);
    assert '\n' !in marker;
    assert '\n' !in " : " + marker;
    assert '\n' !in e.dstName + (" : " + marker);
    assert '\n' !in " -> " + (e.dstName + (" : " + marker));
  }

  /** `"\n".join(items)` over the events of one update. */
  function ChangeText(events: seq<LinkEvent>): (r: string)
    ensures |events| == 0 ==> r == ""
  {
    Join(EventLines(events), '\n')
  }

  /** When no display name holds a newline, the change text splits into one
      line per event, in event order. */
  lemma ChangeTextLines(events: seq<LinkEvent>)
    requires |events| > 0
    requires forall k :: 0 <= k < |events| ==> '\n' !in events[k].srcName && '\n' !in events[k].dstName
    ensures var lines := Split(ChangeText(events), '\n');
      |lines| == |events| && forall k :: 0 <= k < |lines| ==> lines[k] == EventLine(events[k])
  {
    var lines := EventLines(events);
    forall k | 0 <= k < |lines| ensures '\n' !in lines[k] {
      NoNewlineInEventLine(events[k]);
    }
  }

  /** One field of a Slack section block. */
  datatype Field = Mrkdwn(text: string) | PlainText(text: string)

  /** A Slack section block. */
  datatype Block = Section(fields: seq<Field>)

  /** The column headings opening every message's block list. */
  const HeaderBlock: Block := Section([
    Mrkdwn("*Source*\n*Destination*"),
    Mrkdwn("*Forward Status*\n*Backward Status*")])

  /** `f'{first}\n{second}'`. */
  function TwoLines(first: string, second: string): string
  {
    first + ("\n" + second)
  }

  /** Two one-line texts put on two lines split back into those texts. */
  lemma SplitTwoLines(first: string, second: string)
    requires '\n' !in first && '\n' !in second
    ensures Split(TwoLines(first, second), '\n') == [first, second]
  {
    assert "\n" + second == ['\n'] + second;
    SplitPiece(first, '\n', second);
  }

  /** The block for one merged connection: its two end names, and the status
      cells of `status[0]` (forward) and `status[1]` (backward). None when the
      status list is too short to index (the monitor raises). */
  function RowBlock(conn: Conn, status: seq<Link>, nameOf: string -> string, strfdelta: string -> string): (r: Option<Block>)
    ensures r.Some? <==> |status| >= 2
  {
    if |status| < 2 then None
    else
      var fw := StateToMrkdwn(status[0], strfdelta);
      var bw := StateToMrkdwn(status[1], strfdelta);
      Some(Section([
        PlainText(TwoLines(nameOf(conn.0), nameOf(conn.1))),
        PlainText(TwoLines(fw, bw))]))
  }

  /** The blocks for the merged connections, one per entry, in order. */
  function RowBlocks(linkStatus: seq<(Conn, seq<Link>)>, nameOf: string -> string, strfdelta: string -> string): (r: Option<seq<Block>>)
    ensures r.Some? <==> forall k :: 0 <= k < |linkStatus| ==> |linkStatus[k].1| >= 2
    ensures r.Some? ==> |r.value| == |linkStatus| && forall k :: 0 <= k < |linkStatus| ==>
      Some(r.value[k]) == RowBlock(linkStatus[k].0, linkStatus[k].1, nameOf, strfdelta)
    decreases |linkStatus|
  {
    if |linkStatus| == 0 then Some([])
    else
      var first :- RowBlock(linkStatus[0].0, linkStatus[0].1, nameOf, strfdelta);
      var rest :- RowBlocks(linkStatus[1..], nameOf, strfdelta);
      Some([first] + rest)
  }

  /** `build_blocks_for_slack`: the heading block, then one block per merged
      connection in the order `merge_status` lists them. None when some status
      list has fewer than two entries (the monitor raises). */
  function BuildBlocks(linkStatus: seq<(Conn, seq<Link>)>, nameOf: string -> string, strfdelta: string -> string): (r: Option<seq<Block>>)
    ensures r.Some? <==> forall k :: 0 <= k < |linkStatus| ==> |linkStatus[k].1| >= 2
    ensures r.Some? ==> |r.value| == 1 + |linkStatus| && r.value[0] == HeaderBlock
    ensures r.Some? ==> forall k :: 0 <= k < |linkStatus| ==>
      Some(r.value[k + 1]) == RowBlock(linkStatus[k].0, linkStatus[k].1, nameOf, strfdelta)
  {
    var rows :- RowBlocks(linkStatus, nameOf, strfdelta);
    Some([HeaderBlock] + rows)
  }

  /** `block` has two plain-text fields that read back as the end names of
      `conn`, then the forward cell for `status[0]` and the backward cell for
      `status[1]`. */
  predicate ReadsBackAs(block: Block, conn: Conn, status: seq<Link>, nameOf: string -> string, strfdelta: string -> string)
    requires |status| >= 2
  {
    && |block.fields| == 2
    && block.fields[0].PlainText? && block.fields[1].PlainText?
    && Split(block.fields[0].text, '\n') == [nameOf(conn.0), nameOf(conn.1)]
    && var cells := Split(block.fields[1].text, '\n');
    && |cells| == 2
    && ReadMrkdwn(cells[0]) == Some(MarkOf(status[0], strfdelta))
    && ReadMrkdwn(cells[1]) == Some(MarkOf(status[1], strfdelta))
  }

  /** A row block reads back as its connection's end names, then the forward
      cell for `status[0]` and the backward cell for `status[1]`, provided no
      display name and no rendered duration holds a newline. */
  lemma RowBlockReadsBack(conn: Conn, status: seq<Link>, nameOf: string -> string, strfdelta: string -> string)
    requires |status| >= 2
    requires '\n' !in nameOf(conn.0) && '\n' !in nameOf(conn.1)
    requires forall d :: '\n' !in strfdelta(d)
    ensures ReadsBackAs(RowBlock(conn, status, nameOf, strfdelta).value, conn, status, nameOf, strfdelta)
  {
    SplitTwoLines(nameOf(conn.0), nameOf(conn.1));
    CellsReadBack(status[0], status[1], strfdelta);
  }

  /** Row block k of a message reads back as the k-th merged connection's end
      names and its two status cells, in that order. */
  lemma BuildBlocksRows(linkStatus: seq<(Conn, seq<Link>)>, nameOf: string -> string, strfdelta: string -> string, k: nat)
    requires forall j :: 0 <= j < |linkStatus| ==> |linkStatus[j].1| >= 2
    requires k < |linkStatus|
    requires '\n' !in nameOf(linkStatus[k].0.0) && '\n' !in nameOf(linkStatus[k].0.1)
    requires forall d :: '\n' !in strfdelta(d)
    ensures BuildBlocks(linkStatus, nameOf, strfdelta).Some?
    ensures ReadsBackAs(BuildBlocks(linkStatus, nameOf, strfdelta).value[k + 1], linkStatus[k].0, linkStatus[k].1, nameOf, strfdelta)
  {
    RowBlockReadsBack(linkStatus[k].0, linkStatus[k].1, nameOf, strfdelta);
  }

  /** The status cells of two directions, joined by a newline, read back as
      those directions' marks, in order. */
  lemma CellsReadBack(fw: Link, bw: Link, strfdelta: string -> string)
    requires forall d :: '\n' !in strfdelta(d)
    ensures var cells := Split(TwoLines(StateToMrkdwn(fw, strfdelta), StateToMrkdwn(bw, strfdelta)), '\n');
      && |cells| == 2
      && ReadMrkdwn(cells[0]) == Some(MarkOf(fw, strfdelta))
      && ReadMrkdwn(cells[1]) == Some(MarkOf(bw, strfdelta))
  {
    NoNewlineInCell(fw, strfdelta);
    NoNewlineInCell(bw, strfdelta);
    SplitTwoLines(StateToMrkdwn(fw, strfdelta), StateToMrkdwn(bw, strfdelta));
    ReadStateToMrkdwn(fw, strfdelta);
    ReadStateToMrkdwn(bw, strfdelta);
  }

  /** A status cell is one line when the rendered duration is. */
  lemma NoNewlineInCell(link: Link, strfdelta: string -> string)
    requires forall d :: '\n' !in strfdelta(d)
    ensures '\n' !in StateToMrkdwn(link, strfdelta)
  {
  }

  /** The message `on_update` posts. */
  datatype SlackPost = SlackPost(hook: string, channel: string, username: string, text: string, blocks: seq<Block>)

  /** What one `on_update` call does: nothing when the Slack hook or channel is
      not configured, raise while building the blocks, or post a message. */
  datatype Notice = NotConfigured | Raised | Posted(post: SlackPost)

  /** `on_update(changes)`: the change text over the events and the blocks
      over the merged status, posted to the configured hook and channel. */
  function OnUpdate(
    changes: seq<LinkEvent>,
    slackHook: Option<string>,
    slackChannel: Option<string>,
    linkStatus: seq<(Conn, seq<Link>)>,
    nameOf: string -> string,
    strfdelta: string -> string): (r: Notice)
    ensures r.NotConfigured? <==> slackHook.None? || slackChannel.None?
    ensures r.Raised? <==>
      (slackHook.Some? && slackChannel.Some? && exists k :: 0 <= k < |linkStatus| && |linkStatus[k].1| < 2)
    ensures r.Posted? ==>
      && r.post.hook == slackHook.value
      && r.post.channel == slackChannel.value
      && r.post.username == "BTP Monitor"
      && r.post.text == ChangeText(changes)
      && Some(r.post.blocks) == BuildBlocks(linkStatus, nameOf, strfdelta)
  {
    if slackHook.None? || slackChannel.None? then NotConfigured
    else
      match BuildBlocks(linkStatus, nameOf, strfdelta)
      case None => Raised
      case Some(blocks) =>
        Posted(SlackPost(slackHook.value, slackChannel.value, "BTP Monitor", ChangeText(changes), blocks))
  }
}

=== FILE: status_table.dfy ===
/** The `status` command: which connections get a row in the one-shot status
    table, and the pending counts shown for each direction of a row. */
module StatusTable {
  import opened Wrappers
  import opened Seqs
  import opened LinkModel

  /** The `connected` list after the loop has looked at the first `n` known
      links: a link is appended when its reverse is known and not already
      appended. */
  function SelectFirst(known: seq<Conn>, n: nat): seq<Conn>
    requires n <= |known|
    decreases n
  {
    if n == 0 then []
    else
      var connected := SelectFirst(known, n - 1);
      var link := known[n - 1];
      if Reverse(link) in known && Reverse(link) !in connected then connected + [link]
      else connected
  }

  /** The connections the status table lists, in the order it lists them.
      Each is a known link whose reverse is known too; they come in the order
      of the known links; and none comes after its own reverse, so each relay
      link gets at most one row whatever repetitions the known links hold. */
  function Pairs(known: seq<Conn>): (r: seq<Conn>)
    ensures forall x :: x in r ==> x in known && Reverse(x) in known
    ensures IsSubsequence(r, known)
    ensures forall i, j :: 0 <= i < j < |r| ==> r[j] != Reverse(r[i])
  {
    SelectFirstMutual(known, |known|);
    SelectFirstSubsequence(known, |known|);
    SelectFirstNoReverse(known, |known|);
    assert known[..|known|] == known;
    SelectFirst(known, |known|)
  }

  lemma {:induction false} SelectFirstMutual(known: seq<Conn>, n: nat)
    requires n <= |known|
    ensures forall x :: x in SelectFirst(known, n) ==> x in known[..n] && Reverse(x) in known
    decreases n
  {
    if n > 0 {
      SelectFirstMutual(known, n - 1);
      assert known[..n] == known[..n - 1] + [known[n - 1]];
    }
  }

  /** A forward-only connection is not listed. */
  lemma ForwardOnlyDropped(known: seq<Conn>, c: Conn)
    requires Reverse(c) !in known
    ensures c !in Pairs(known)
  {
  }

  lemma {:induction false} SelectFirstSubsequence(known: seq<Conn>, n: nat)
    requires n <= |known|
    ensures IsSubsequence(SelectFirst(known, n), known[..n])
    decreases n
  {
    if n > 0 {
      SelectFirstSubsequence(known, n - 1);
      var prev := SelectFirst(known, n - 1);
      var cur := SelectFirst(known, n);
      assert known[..n][..n - 1] == known[..n - 1];
      if cur != prev {
        assert cur[..|cur| - 1] == prev;
      }
    }
  }

  lemma {:induction false} SelectFirstNoReverse(known: seq<Conn>, n: nat)
    requires n <= |known|
    ensures forall i, j :: 0 <= i < j < |SelectFirst(known, n)| ==>
      SelectFirst(known, n)[j] != Reverse(SelectFirst(known, n)[i])
    decreases n
  {
    if n > 0 {
      SelectFirstNoReverse(known, n - 1);
    }
  }

  lemma {:induction false} SelectFirstFirstSeen(known: seq<Conn>, n: nat)
    requires n <= |known|
    requires Distinct(known)
    ensures forall x :: x in SelectFirst(known, n) <==>
      exists i :: 0 <= i < n && known[i] == x && Reverse(x) in known && Reverse(x) !in known[..i]
    decreases n
  {
    if n > 0 {
      SelectFirstFirstSeen(known, n - 1);
      var link := known[n - 1];
      var prev := SelectFirst(known, n - 1);
      // Among the first n - 1 links, `link` does not occur.
      assert link !in known[..n - 1];
      if Reverse(link) in known {
        // The reverse was appended earlier exactly when it came earlier.
        if Reverse(link) in known[..n - 1] {
          var i :| 0 <= i < n - 1 && known[i] == Reverse(link);
          assert link !in known[..i];
          assert Reverse(link) in prev;
        } else {
          assert Reverse(link) !in prev;
        }
      }
    }
  }

  /** With no repeated known link, a known link is listed exactly when its
      reverse is known and does not come before it: each relay link is listed
      as the direction seen first. */
  lemma PairsFirstSeen(known: seq<Conn>)
    requires Distinct(known)
    ensures forall i :: 0 <= i < |known| ==>
      (known[i] in Pairs(known) <==> Reverse(known[i]) in known && Reverse(known[i]) !in known[..i])
  {
    SelectFirstFirstSeen(known, |known|);
    forall i | 0 <= i < |known|
      ensures known[i] in Pairs(known) <==> Reverse(known[i]) in known && Reverse(known[i]) !in known[..i]
    {
      if known[i] in Pairs(known) {
        var j :| 0 <= j < |known| && known[j] == known[i] && Reverse(known[i]) in known && Reverse(known[i]) !in known[..j];
        assert j == i;
      }
    }
  }

  /** With no repeated known link, each mutual relay link `{a, b}` with
      `a != b` is listed in exactly one direction, and no row repeats. */
  lemma PairsExactlyOnce(known: seq<Conn>)
    requires Distinct(known)
    ensures Distinct(Pairs(known))
    ensures forall x :: x in known && Reverse(x) in known && x != Reverse(x) ==>
      (x in Pairs(known) <==> Reverse(x) !in Pairs(known))
  {
    var r := Pairs(known);
    PairsFirstSeen(known);
    SelectFirstDistinct(known, |known|);
    forall x | x in known && Reverse(x) in known && x != Reverse(x)
      ensures x in r <==> Reverse(x) !in r
    {
      var a :| 0 <= a < |known| && known[a] == x;
      var b :| 0 <= b < |known| && known[b] == Reverse(x);
      assert a != b;
      if a < b {
        assert x in known[..b];
        assert Reverse(x) !in known[..a];
      } else {
        assert Reverse(x) in known[..a];
        assert x !in known[..b];
      }
    }
  }

  lemma {:induction false} SelectFirstDistinct(known: seq<Conn>, n: nat)
    requires n <= |known|
    requires Distinct(known)
    ensures Distinct(SelectFirst(known, n))
    decreases n
  {
    if n > 0 {
      SelectFirstDistinct(known, n - 1);
      SelectFirstMutual(known, n - 1);
      assert known[n - 1] !in known[..n - 1];
    }
  }

  /** A later occurrence of a connection already listed is listed again,
      unless the connection is its own reverse: the loop only looks for the
      reverse among the listed connections, and no listed connection has its
      reverse listed too. */
  lemma RepeatListedAgain(known: seq<Conn>, j: nat)
    requires j < |known|
    requires known[j] != Reverse(known[j])
    requires known[j] in SelectFirst(known, j)
    ensures SelectFirst(known, j + 1) == SelectFirst(known, j) + [known[j]]
  {
    SelectFirstMutual(known, j);
    SelectFirstNoReverse(known, j);
  }

  /** With a repeated known link, the repeat is listed again: the known links
      (a, b), (b, a), (a, b) give two rows for (a, b). */
  lemma PairsRepeatedLink()
    ensures Pairs([("a", "b"), ("b", "a"), ("a", "b")]) == [("a", "b"), ("a", "b")]
  {
    var known: seq<Conn> := [("a", "b"), ("b", "a"), ("a", "b")];
    assert SelectFirst(known, 1) == [("a", "b")];
    assert SelectFirst(known, 2) == [("a", "b")];
    RepeatListedAgain(known, 2);
  }

  /** One row of the status table: the display names of the two ends and the
      pending count in each direction. */
  datatype Row = Row(srcName: string, dstName: string, fwPending: int, bwPending: int)

  /** The rows for `conns`; None when a counter lookup comes back absent (the
      monitor then fails reading `tx_seq` of nothing). */
  function RowsOf(conns: seq<Conn>, getUpdate: Conn -> Option<SeqUpdate>, nameOf: string -> string): (r: Option<seq<Row>>)
    ensures r.Some? <==> forall k :: 0 <= k < |conns| ==>
      getUpdate(conns[k]).Some? && getUpdate(Reverse(conns[k])).Some?
    ensures r.Some? ==> |r.value| == |conns| && forall k :: 0 <= k < |conns| ==>
      && r.value[k].srcName == nameOf(conns[k].0)
      && r.value[k].dstName == nameOf(conns[k].1)
      && r.value[k].fwPending == PendingOf(getUpdate(conns[k]).value)
      && r.value[k].bwPending == PendingOf(getUpdate(Reverse(conns[k])).value)
    decreases |conns|
  {
    if |conns| == 0 then Some([])
    else
      var conn := conns[0];
      var fw :- getUpdate(conn);
      var bw :- getUpdate(Reverse(conn));
      var rest :- RowsOf(conns[1..], getUpdate, nameOf);
      Some([Row(nameOf(conn.0), nameOf(conn.1), PendingOf(fw), PendingOf(bw))] + rest)
  }

  /** The whole status table below its header: one row per listed connection
      (a, b), in order, with the pending count of (a, b) as forward and that
      of (b, a) as backward. None when some listed connection lacks counters in
      either direction. */
  function StatusRows(known: seq<Conn>, getUpdate: Conn -> Option<SeqUpdate>, nameOf: string -> string): (r: Option<seq<Row>>)
    ensures var pairs := Pairs(known);
      r.Some? <==> forall k :: 0 <= k < |pairs| ==> getUpdate(pairs[k]).Some? && getUpdate(Reverse(pairs[k])).Some?
    ensures var pairs := Pairs(known);
      r.Some? ==> |r.value| == |pairs| && forall k :: 0 <= k < |pairs| ==>
        var fw, bw := getUpdate(pairs[k]).value, getUpdate(Reverse(pairs[k])).value;
        && r.value[k].srcName == nameOf(pairs[k].0)
        && r.value[k].dstName == nameOf(pairs[k].1)
        && r.value[k].fwPending == fw.txSeq - fw.rxSeq
        && r.value[k].bwPending == bw.txSeq - bw.rxSeq
  {
    RowsOf(Pairs(known), getUpdate, nameOf)
  }

  /** When every known link has counters, the status table is printed in
      full: every listed connection's reverse is a known link too. */
  lemma StatusRowsComplete(known: seq<Conn>, getUpdate: Conn -> Option<SeqUpdate>, nameOf: string -> string)
    requires forall c :: c in known ==> getUpdate(c).Some?
    ensures StatusRows(known, getUpdate, nameOf).Some?
  {
  }
}

=== FILE: text.dfy ===
/** The string operations the monitor's messages are built from and read back
    with: Python's `sep.join(parts)` and `s.split(sep)` for a one-character
    separator, cutting a string at the first separator, and prefix and suffix
    tests. */
module Text {
  import opened Wrappers

  /** Index of the first occurrence of `c` in `s`. */
  function IndexOf(s: string, c: char): (i: nat)
    requires c in s
    ensures i < |s| && s[i] == c
    ensures c !in s[..i]
    decreases |s|
  {
    if s[0] == c then 0
    else
      var j := IndexOf(s[1..], c);
      assert s[..j + 1] == [s[0]] + s[1..][..j];
      j + 1
  }

  /** Splits `s` at the first `sep`: the text before it and the text after
      it, or None when `sep` does not occur. */
  function Cut(s: string, sep: char): (r: Option<(string, string)>)
    ensures r.None? <==> sep !in s
    ensures r.Some? ==> sep !in r.value.0 && s == r.value.0 + [sep] + r.value.1
  {
    if sep in s then
      var i := IndexOf(s, sep);
      assert s == s[..i] + [sep] + s[i + 1..];
      Some((s[..i], s[i + 1..]))
    else None
  }

  /** Cutting a text assembled around its first separator gives back the two
      parts it was assembled from. */
  lemma CutConcat(a: string, sep: char, b: string)
    requires sep !in a
    ensures Cut(a + ([sep] + b), sep) == Some((a, b))
  {
    var s := a + ([sep] + b);
    var r := Cut(s, sep);
    var a', b' := r.value.0, r.value.1;
    assert s[|a|] == sep && s[|a'|] == sep;
    assert |a'| == |a|;
    assert a' == s[..|a|] == a;
    assert b' == s[|a| + 1..] == b;
  }

  /** `s` with the prefix `p` removed, or None when `s` does not start with `p`. */
  function StripPrefix(p: string, s: string): (r: Option<string>)
    ensures r.Some? <==> p <= s
    ensures r.Some? ==> s == p + r.value
  {
    if p <= s then Some(s[|p|..]) else None
  }

  /** Removing a prefix a text was assembled with gives back the rest. */
  lemma StripPrefixConcat(p: string, s: string)
    ensures StripPrefix(p, p + s) == Some(s)
  {
  }

  /** Python's `s.endswith(suffix)`. */
  predicate EndsWith(s: string, suffix: string)
  {
    |suffix| <= |s| && s[|s| - |suffix|..] == suffix
  }

  /** Python's `s.split(sep)`: the pieces between the separators, at least one. */
  function Split(s: string, sep: char): (r: seq<string>)
    ensures |r| > 0
    ensures forall k :: 0 <= k < |r| ==> sep !in r[k]
    decreases |s|
  {
    match Cut(s, sep)
    case None => [s]
    case Some((before, after)) => [before] + Split(after, sep)
  }

  /** No part contains the separator. */
  predicate NoneContains(parts: seq<string>, sep: char)
  {
    forall k :: 0 <= k < |parts| ==> sep !in parts[k]
  }

  /** A separator-free first part, a separator, then a text that splits into
      the remaining parts, splits into all the parts. */
  lemma SplitCons(parts: seq<string>, sep: char, rest: string)
    requires |parts| > 1 && NoneContains(parts, sep)
    requires Split(rest, sep) == parts[1..]
    ensures Split(parts[0] + ([sep] + rest), sep) == parts
  {
    assert sep !in parts[0];
    SplitPiece(parts[0], sep, rest);
    assert parts == [parts[0]] + parts[1..];
  }

  /** A separator-free piece and a separator split off as that piece. */
  lemma SplitPiece(a: string, sep: char, rest: string)
    requires sep !in a
    ensures Split(a + ([sep] + rest), sep) == [a] + Split(rest, sep)
  {
    CutConcat(a, sep, rest);
  }

  /** Python's `sep.join(parts)`. Splitting the joined text gives back the
      parts, provided there is at least one part and no part contains the
      separator. */
  function Join(parts: seq<string>, sep: char): (r: string)
    ensures |parts| > 0 && NoneContains(parts, sep) ==> Split(r, sep) == parts
    decreases |parts|
  {
    if |parts| == 0 then ""
    else if |parts| == 1 then parts[0]
    else
      var rest := Join(parts[1..], sep);
      var joined := parts[0] + ([sep] + rest);
      if NoneContains(parts, sep) then
        assert NoneContains(parts[1..], sep);
        SplitCons(parts, sep, rest);
        joined
      else joined
  }

  /** Joining the pieces of a split text gives back the text. */
  lemma {:induction false} JoinSplit(s: string, sep: char)
    ensures Join(Split(s, sep), sep) == s
    decreases |s|
  {
    match Cut(s, sep)
    case None =>
    case Some((before, after)) =>
      JoinSplit(after, sep);
      var tail := Split(after, sep);
      assert Split(s, sep) == [before] + tail;
      assert ([before] + tail)[1..] == tail;
  }
}

=== FILE: wrappers.dfy ===
/** Optional values. `None` stands for an absent lookup result, or for a call
    that raises in the monitor instead of returning. */
module Wrappers {

  datatype Option<+T> = None | Some(value: T) {

    /** An absent value stops a `:-` chain. */
    predicate IsFailure() {
      None?
    }

    /** The absent value, carried on to a chain of another result type. */
    function PropagateFailure<U>(): Option<U>
      requires None?
    {
      None
    }

    /** The value a `:-` chain continues with. */
    function Extract(): T
      requires Some?
    {
      value
    }
  }

  /** Applies `f` to every element in order; None as soon as one application
      is None, as a loop that raises on the first failing element. */
  function Traverse<A, B>(xs: seq<A>, f: A -> Option<B>): (r: Option<seq<B>>)
    ensures r.Some? <==> forall k :: 0 <= k < |xs| ==> f(xs[k]).Some?
    ensures r.Some? ==> |r.value| == |xs| && forall k :: 0 <= k < |xs| ==> Some(r.value[k]) == f(xs[k])
    decreases |xs|
  {
    if |xs| == 0 then Some([])
    else
      var first :- f(xs[0]);
      var rest :- Traverse(xs[1..], f);
      Some([first] + rest)
  }
}
